=== FILE: README.md ===
# Backend qualification exercises in Dafny

A Dafny model of three small pieces of a TypeScript code base, with the
properties each one promises proved about the model.

- **The structural value codec** (`Codec`, `codec.dfy`). `serialize` turns a
  value tree into a JSON-safe tree. The tree can hold null, undefined,
  strings, numbers, booleans, Dates, Buffers, Sets, Maps, arrays and plain
  objects. Dates, Buffers, Sets and Maps become the tagged record
  `{__t: tag, __v: payload}`. `deserialize` reverses this: it dispatches on
  the `__t` tag. It decodes a record with an unknown or non-string tag as a
  plain record. A Set or Map payload that is not an array decodes to an
  empty Set or Map, and a Map entry that is not an array to
  `(undefined, undefined)`. One datatype `Value` serves both directions, because
  `deserialize` accepts any value. `IsJson` picks out the trees that
  `serialize` produces.
- **Object identifiers** (`ObjectIds`, `object_id.dfy`). An id is 14 bytes:
  - a type byte;
  - a 48-bit big-endian timestamp;
  - four random bytes shared by the whole process;
  - a 24-bit big-endian counter that advances by one, modulo 2^24, with every
    id made.

  The process-wide random bytes and counter are the fields of a
  `ProcessState` object. The `ObjectId` constructor fills a fresh 14-byte
  array in place and advances the counter. `toString()` gives lower-case hex.
- **Downtime merge** (`Downtime`, `downtime.dfy`). `merge` flattens several
  interval lists and sorts them by start, then by end. It then sweeps them
  once. An interval that starts no later than the running end extends the
  running output interval; touching intervals count. Any other interval
  opens a new output interval. Dates are their millisecond time values.
  The instants an interval covers are taken as real numbers, so the output
  never joins `[0, 2]` and `[3, 5]` across the gap between them.

`wrappers.dfy` holds the `Option` type the other modules share.

A Map entry is decoded after a single `Array.isArray` test
(src/level1/problem1/index.ts:106), not a test for two elements:

- an entry that is not an array decodes to `(undefined, undefined)`;
- `[]` decodes to `(undefined, undefined)`;
- `[k]` decodes to `(deserialize(k), undefined)`;
- a longer array uses its first two elements.

`Codec.DeserializeEntry` and `Codec.DeserializeSingleEntryMap` state these cases.

## Model

| member | source | states |
|---|---|---|
| Codec.Serialize | src/level1/problem1/index.ts:9-65 | The result is always JSON-safe: only primitives, arrays and plain records remain. A value of an unrecognised kind serializes to `undefined`. |
| Codec.SerializeShape | src/level1/problem1/index.ts:10-64 | Per variant: null, strings, numbers, booleans and undefined pass through unchanged. A Date becomes exactly `{__t:'Date', __v:time}`. A Buffer becomes the `'Buffer'` tag over its bytes as numbers, in order. A Set/Map becomes its tag over one serialized item or `[key, value]` pair per element, in iteration order. An array is mapped element-wise with the same length. A plain object keeps its keys in order, including undefined-valued ones, with each value serialized. Any other kind, a record that is not plain included, gives `undefined`. |
| Codec.IsPlainObject | src/level1/problem1/index.ts:128-134 | A value is a plain object exactly when it is a record with no own `constructor` field (such a field hides the inherited `Object` constructor). |
| Codec.OwnConstructorField | src/level1/problem1/index.ts:54-64 | A record with an own `constructor` field is not plain: `serialize` and `deserialize` both give `undefined` for it. |
| Codec.Tagged | src/level1/problem1/index.ts:26-47 | The tagged record's `__t` reads back as the tag and its `__v` as the payload. It is JSON-safe exactly when the payload is. |
| Codec.SerializePair | src/level1/problem1/index.ts:43-46 | A Map entry goes on the wire as a JSON-safe two-element array. |
| Codec.SerializeJsonIdentity | src/level1/problem1/index.ts:10-23 | `serialize` is the identity on every JSON-safe tree, so serializing an already serialized scalar, array or record changes nothing. |
| Codec.SerializeIdempotent | src/level1/problem1/index.ts:9-65 | Serializing twice gives the same tree as serializing once. |
| Codec.RoundTrip | src/level1/problem1/index.ts:9-126 | `deserialize(serialize(v)) == v` for every value that is representable. Representable means: Date time values in range; distinct primitive Set items and Map keys; no unrecognised kind; every record plain (no own `constructor` field) and none whose `__t` is `'Date'`, `'Buffer'`, `'Set'` or `'Map'`. |
| Codec.RoundTripSet | src/level1/problem1/index.ts:33-38 | The Set case of the round trip: one decoded item per serialized item, with nothing deduplicated away. |
| Codec.RoundTripMap | src/level1/problem1/index.ts:40-48 | The Map case of the round trip: every `[key, value]` pair decodes to its entry, in order. |
| Codec.RoundTripArray | src/level1/problem1/index.ts:50-52 | The array case of the round trip, element by element. |
| Codec.RoundTripRecord | src/level1/problem1/index.ts:54-62 | The plain-object case of the round trip: the same keys in the same order, each value round-tripped. |
| Codec.Deserialize | src/level1/problem1/index.ts:71-126 | Null, undefined, strings, numbers and booleans decode to themselves. An array decodes to the array of its decoded elements, in order. A value that is neither a scalar, an array nor a plain object decodes to `undefined`. On a plain object, the tag `'Date'` yields the Date `new Date(__v)` (`ToTime`) and `'Buffer'` the Buffer `Buffer.from(__v ?? [])` (`ToBytes`). `'Set'` yields a Set without repeated primitives, and `'Map'` a Map without repeated primitive keys. Without one of the four tags the result is a record with the same keys in the same order. |
| Codec.DeserializeTagged | src/level1/problem1/index.ts:90-108 | A plain record tagged `'Set'` decodes to `new Set` (`SetFrom`) of its decoded `__v` items. One tagged `'Map'` decodes to `new Map` (`MapFrom`) of its decoded `__v` entries. A missing `__v` counts as undefined. |
| Codec.DeserializeRepeatedItem | src/level1/problem1/index.ts:97-100 | A `'Set'` record whose `__v` is `[x, x]` for a primitive `x` decodes to the Set holding `x` once. |
| Codec.DeserializeUntagged | src/level1/problem1/index.ts:89-122 | A plain object whose `__t` is missing, not a string, or not one of the four tags decodes field by field. It keeps every key, `__t` and `__v` included, in order, and decodes each value. |
| Codec.DeserializeNonArraySet | src/level1/problem1/index.ts:98-101 | A plain `'Set'` record whose `__v` is not an array decodes to the empty Set. |
| Codec.DeserializeNonArrayMap | src/level1/problem1/index.ts:102-110 | A plain `'Map'` record whose `__v` is not an array decodes to the empty Map. |
| Codec.DeserializeNullishBuffer | src/level1/problem1/index.ts:96-97 | A plain `'Buffer'` record whose `__v` is null or undefined decodes to the empty Buffer. |
| Codec.DeserializeSingleEntryMap | src/level1/problem1/index.ts:104-109 | A one-entry Map payload of a plain `'Map'` record: a non-array entry or `[]` gives `(undefined, undefined)`; `[k]` gives `(deserialize(k), undefined)`; a longer array gives its first two elements, decoded. |
| Codec.FieldIndex | src/level1/problem1/index.ts:89-91 | Looking up `record.__t` / `record.__v` finds the first field with that name, or reports that no field has it. |
| Codec.TagOf | src/level1/problem1/index.ts:89-90 | The tag is the string held by the `__t` field; there is none when that field is missing or holds anything but a string. |
| Codec.ToTime | src/level1/problem1/index.ts:94-95 | `new Date(payload)` on an in-range number keeps that time value, and every result is a valid time value. |
| Codec.ToBytes | src/level1/problem1/index.ts:96-97 | `Buffer.from(payload ?? [])` gives the empty buffer for null and undefined. An array payload gives one byte per element, each the element converted to 0..255; an array of numbers in 0..255 gives exactly those bytes. |
| Codec.ToUint8 | src/level1/problem1/index.ts:97 | An element already in 0..255 is stored as it is, and every result is a byte. |
| Codec.SetFrom | src/level1/problem1/index.ts:100 | `new Set(items)` holds exactly the given items, without a repeated primitive, and has at most as many elements as were given. Every object item is kept, once per occurrence. |
| Codec.SetFromAppend | src/level1/problem1/index.ts:100 | Insertion order: one more item at the end of the input is appended at the end of the Set, unless it is a primitive already present, which leaves the Set unchanged. |
| Codec.AddAllKeepsObjects | src/level1/problem1/index.ts:100 | Adding items to a Set never drops an object: each occurrence of an object item is added. |
| Codec.SetAdd | src/level1/problem1/index.ts:100 | `set.add(x)` keeps the existing elements in place, adds at most one element at the end, holds exactly the old elements and `x`, and keeps primitives unrepeated. |
| Codec.AddAll | src/level1/problem1/index.ts:100 | Adding items to a Set keeps it free of repeated primitives and holds exactly the old elements and the new items. |
| Codec.SetFromDistinct | src/level1/problem1/index.ts:100 | Items without repeated primitives pass through `new Set` unchanged. |
| Codec.MapFrom | src/level1/problem1/index.ts:104-109 | `new Map(entries)` has exactly the given keys, primitive ones once each, and at most as many entries as were given. It is empty only when no entry was given. Every entry that is the last one given for its primitive key is present, so a later value for a key replaces an earlier one; every entry with an object key is present. |
| Codec.MapFromAppend | src/level1/problem1/index.ts:104-109 | Insertion order: one more entry at the end of the input replaces, in place, the entry of its key when that key is a primitive already present, and is appended at the end otherwise. |
| Codec.SetAllKeepsOld | src/level1/problem1/index.ts:104-109 | Setting entries in order keeps an earlier entry whose key is an object or is not set again. |
| Codec.SetAllKeeps | src/level1/problem1/index.ts:104-109 | Setting entries in order keeps every new entry that is the last one set for its key, or whose key is an object. |
| Codec.MapSet | src/level1/problem1/index.ts:104-109 | `map.set(k, x)` keeps keys unrepeated, adds `k`, stores `(k, x)` and grows by at most one entry. Every other entry is kept with its value; with an object key nothing is overwritten. |
| Codec.SetAll | src/level1/problem1/index.ts:104-109 | Setting entries in order keeps keys unrepeated and holds exactly the old keys and the new ones. |
| Codec.MapFromDistinct | src/level1/problem1/index.ts:104-109 | Entries without repeated primitive keys pass through `new Map` unchanged. |
| Codec.DeserializeItems | src/level1/problem1/index.ts:99-100 | A Set payload that is an array decodes to its elements, each decoded, in order. Any other payload decodes to no items. |
| Codec.DeserializeEntries | src/level1/problem1/index.ts:103-108 | A Map payload that is an array decodes to one entry per element, in order, each one `DeserializeEntry` of that element. Any other payload decodes to no entries. |
| Codec.DeserializeEntry | src/level1/problem1/index.ts:105-107 | A Map entry that is not an array, or is `[]`, gives `(undefined, undefined)`; `[k]` gives `(deserialize(k), undefined)`; a longer array gives its first two elements, decoded. |
| ObjectIds.ProcessState.constructor | src/level1/problem2/index.ts:3-4 | The process state holds four random bytes. The counter starts at the three given bytes read big-endian. |
| ObjectIds.FromBigEndian | src/level1/problem2/index.ts:4 | `readUIntBE` of n bytes is below 256^n. |
| ObjectIds.BigEndian | src/level1/problem2/index.ts:15-20 | The big-endian digits of a value occupy exactly the requested width. |
| ObjectIds.FromBigEndianOfBigEndian | src/level1/problem2/index.ts:15-20 | Reading back the big-endian bytes of a value that fits the width gives the value. |
| ObjectIds.BigEndianOfFromBigEndian | src/level1/problem2/index.ts:4 | Writing back the value of some bytes gives the same bytes. |
| ObjectIds.TypeByte | src/level1/problem2/index.ts:10 | `type & 0xff` for an integer type is the byte congruent to the type modulo 256; a type already in 0..255 is kept. |
| ObjectIds.Layout | src/level1/problem2/index.ts:13-20 | The 14 bytes: byte 0 is the type byte, bytes 1-6 the 6 big-endian timestamp digits, bytes 7-10 the random bytes, bytes 11-13 the 3 big-endian counter digits. |
| ObjectIds.WriteUIntBE | src/level1/problem2/index.ts:15-20 | `writeUIntBE(value, offset, width)` puts the big-endian digits of `value` at `offset..offset+width` and leaves every other byte of the buffer as it was. |
| ObjectIds.CopyInto | src/level1/problem2/index.ts:16 | `copy(buf, offset)` puts the source bytes at `offset` and leaves every other byte as it was. |
| ObjectIds.LayoutFields | src/level1/problem2/index.ts:9-21 | An id is 14 bytes. Byte 0 is the type modulo 256. Bytes 1-6 read back as the timestamp and bytes 7-10 are the random bytes. Bytes 11-13 read back as the counter. |
| ObjectIds.ObjectId.constructor | src/level1/problem2/index.ts:9-21 | A fresh 14-byte array (`Valid`) holds the layout of the type, timestamp, random bytes and the counter read before the increment. The counter advances to `(c + 1) mod 2^24`, so it stays in `[0, 2^24)`. |
| ObjectIds.ObjectId.Generate | src/level1/problem2/index.ts:23-25 | `generate()` without a type uses type 0. The timestamp is the clock reading passed in. The counter advances as for the constructor. |
| ObjectIds.GenerateTwice | src/level1/problem2/index.ts:16-20 | Two ids made one after the other are fresh, 14 bytes each, and hold the layouts of their own types and clock readings. They share their random bytes. The first carries the counter `c`, the second `(c + 1) mod 2^24`, and afterwards the process counter is `(c + 2) mod 2^24`. |
| ObjectIds.HexDigit | src/level1/problem2/index.ts:28 | Every nibble is spelled with a lower-case hex digit. |
| ObjectIds.Hex | src/level1/problem2/index.ts:28 | The hex spelling has two lower-case hex digits per byte. |
| ObjectIds.HexAt | src/level1/problem2/index.ts:28 | Byte i is spelled by characters 2i (high nibble) and 2i+1 (low nibble). |
| ObjectIds.FromHexOfHex | src/level1/problem2/index.ts:28 | The hex spelling decodes back to the bytes. |
| ObjectIds.ObjectId.ToString | src/level1/problem2/index.ts:27-29 | `toString()` without an encoding gives, for a 14-byte id, exactly 28 lower-case hex digits that decode back to the id's bytes in order. |
| Downtime.Flatten | src/level2/problem2/index.ts:4 | `args.flat()` holds exactly the intervals of the lists. It is empty exactly when every list is empty or there are none. |
| Downtime.LexOrder | src/level2/problem2/index.ts:12 | The comparator `LexLeq` (by start, then by end) is reflexive, total and transitive, and two intervals it ranks equal are the same interval. |
| Downtime.Insert | src/level2/problem2/index.ts:10-12 | Inserting into an ordered sequence keeps it ordered by (start, end) and adds exactly that interval. |
| Downtime.SortIntervals | src/level2/problem2/index.ts:10-12 | The sorted copy is ordered lexicographically by (start, end) and is a permutation of the input. |
| Downtime.Step | src/level2/problem2/index.ts:17-31 | One step of the sweep never empties the output, grows it by at most one interval and leaves all but the last output interval alone. Afterwards the last output interval ends no earlier than the consumed interval. An interval starting no later than the running end is absorbed without opening a new output interval, and the last interval keeps its start. |
| Downtime.StepCases | src/level2/problem2/index.ts:17-31 | An interval starting no later than the running end, touching included, is absorbed: the running end becomes the larger end and nothing else changes. Otherwise the interval is appended. |
| Downtime.Absorb | src/level2/problem2/index.ts:16-31 | One pass of the loop body computes exactly the sweep step `Step`. |
| Downtime.StepOrder | src/level2/problem2/index.ts:16-32 | Each step keeps the output ascending by start, neighbours strictly apart, and no start later than any interval still to come. It keeps well-formed input well formed. |
| Downtime.StepFrom | src/level2/problem2/index.ts:18-30 | Each step keeps every output start equal to some consumed input start, and every output end equal to some consumed input end. |
| Downtime.StepCovers | src/level2/problem2/index.ts:16-32 | Each step keeps every consumed input interval inside one output interval. |
| Downtime.StepSound | src/level2/problem2/index.ts:16-32 | Each step keeps every real instant of the output inside some consumed input interval. |
| Downtime.Sweep | src/level2/problem2/index.ts:14-32 | After the loop over the sorted copy, all four invariants hold for the whole input. |
| Downtime.SeparatedPairwise | src/level2/problem2/index.ts:24-26 | For well-formed intervals, neighbours being apart means every earlier output ends before every later one starts. |
| Downtime.UnionOfPermutation | src/level2/problem2/index.ts:10-12 | Sorting keeps every real instant covered by the input covered. |
| Downtime.EndpointsFromInput | src/level2/problem2/index.ts:18-30 | Output endpoints are endpoints of the flattened input. |
| Downtime.InputCovered | src/level2/problem2/index.ts:16-32 | Every flattened input interval lies inside an output interval. |
| Downtime.OutputApart | src/level2/problem2/index.ts:24-26 | For well-formed input, the output is well formed and pairwise apart. |
| Downtime.GapSplitsOutput | src/level2/problem2/index.ts:24-26 | What the rule "a start after the running end opens a new interval" means for the output. If an instant strictly between the end of `a` and the start of `b` lies in no input interval, then an output covering only input instants has no interval holding both `a` and `b`. This holds for every input and every pair of well-formed intervals. |
| Downtime.GapKept | src/level2/problem2/index.ts:24-26 | For the logs `[[0, 2], [3, 5]]`, no output that covers only instants of the logs can hold `[0, 5]`, because 2.5 lies in neither interval. |
| Downtime.Merge | src/level2/problem2/index.ts:3-35 | The output is empty exactly when every log is empty, and is never longer than the flattened input. It is ascending and strictly separated. Each output endpoint is an input endpoint. Every input interval lies inside an output interval. Every output instant, taken as a real number, lies in some input interval, so an output interval never bridges a gap between input intervals. For well-formed input, the output is well formed and pairwise apart. |

## Left out

- `ExecutionCache` (src/level2/problem1/index.ts) is not part of this model. It deduplicates in-flight asynchronous executions, which depends on promise settlement and a foreign handler.
- Randomness and the clock: the random bytes, the initial counter bytes and `Date.now()` are parameters.
- The base64 branch of `toString` is a library encoding; only the default hex encoding is modelled.
- Numbers are integers. NaN, -0, fractional numbers and `Math.floor` on them, and Invalid Dates are not modelled.
- Codec.Deserialize: requires its input to avoid the Date and Buffer payloads outside the model. A Date payload must be an in-range integer, null or a boolean. For any other Date payload `new Date` does one of these, none of them modelled: a missing `__v`, undefined or an out-of-range number gives an Invalid Date; a string is parsed; a Date object gives a copy of its time; any other object is first turned into a string, which for a plain record, a Set or a Map does not parse (an Invalid Date) and for an array or a Buffer is then parsed. A Buffer payload must be null, undefined, or an array of integers, booleans, null and undefined. For any other Buffer payload `Buffer.from` does one of these, none of them modelled: a number or a boolean makes it throw a TypeError; a string is encoded as UTF-8; other objects take their own paths (a Buffer is copied, a Date is turned into a string and encoded, most plain records, Sets and Maps make it throw a TypeError); array elements that are strings or objects are converted through `Number`.
- ObjectIds.ObjectId.constructor: requires a timestamp in `[0, 2^48)`; the `RangeError` that `writeUIntBE` raises for other timestamps is not modelled.
- The JSON text layer is not modelled: `serialize` produces a tree, and how `undefined` is written inside arrays is outside the model.
- `isPlainObject` inspects prototypes at run time. In the closed datatype it is "a record without an own `constructor` field" (`Codec.IsPlainObject`), and a class instance is the `Other` variant. A record with an own `constructor` field is plain in the source when its prototype is null (`Object.create(null)`) or when that field holds the `Object` function itself; the model does not represent prototypes or that function, so it treats every such record as not plain.
- A plain record is a sequence of fields whose names are taken to be distinct, as a JavaScript object's are. The special `__proto__` key is not modelled. The enumeration order of integer-like keys is taken as given in the sequence.
- Object identity in Sets and Maps is SameValueZero. Primitives are deduplicated by value. Decoded objects are always new objects and are never deduplicated. Identity of objects shared inside the input value is not modelled.
- Cyclic inputs cannot be expressed in the datatype, so the unbounded recursion they cause is not modelled.
- Downtime intervals are values. The model does not show that the input lists stay unchanged, or that the pushed pairs are new arrays whose end is overwritten in place; with values neither can be observed. The `[Date, Date]` pair becomes two millisecond values.
- The host `Array.prototype.sort` is stood in for by an insertion sort with the same comparator. Intervals with equal keys are equal values, so every correct sort gives the same sequence.

=== FILE: codec.dfy ===
/**
 * The structural value codec: `serialize` turns an extended value tree
 * (scalars, dates, byte buffers, sets, maps, arrays, plain records) into a
 * JSON-safe tree in which dates, buffers, sets and maps become the tagged
 * record {__t: tag, __v: payload}; `deserialize` reverses it.
 *
 * Both functions take any runtime value, so one datatype serves both sides;
 * `IsJson` picks out the JSON-safe trees that `Serialize` produces.
 */
module Codec {
  import opened Wrappers

  /** Largest magnitude of the time value of a valid Date, in milliseconds (ECMAScript TimeClip). */
  const MaxTime: int := 8_640_000_000_000_000

  /** Field names of the tagged record. */
  const TagKey: string := "__t"
  const PayloadKey: string := "__v"

  /** The own field that makes `isPlainObject` fail: `value.constructor` is then no longer `Object`. */
  const ConstructorKey: string := "constructor"

  /**
   * A runtime value. Numbers are integers. A `Set` lists its elements and a
   * `Map` its entries in insertion order; a `Record` lists its own enumerable
   * fields in enumeration order. `Other` stands for every object kind the
   * codec does not recognise (a function, a RegExp, a class instance).
   */
  datatype Value =
    | Null
    | Undefined
    | Str(s: string)
    | Num(n: int)
    | Bool(b: bool)
    | Date(time: int)
    | Buffer(bytes: seq<Byte>)
    | Set(items: seq<Value>)
    | Map(entries: seq<(Value, Value)>)
    | Array(elems: seq<Value>)
    | Record(fields: seq<(string, Value)>)
    | Other

  /** The values `typeof` reports as null, string, number, boolean or undefined. */
  predicate IsPrimitive(v: Value) {
    v.Null? || v.Undefined? || v.Str? || v.Num? || v.Bool?
  }

  /**
   * `isPlainObject`: of the closed set of kinds only a record qualifies, and
   * only when it has no own `constructor` field, since such a field hides the
   * inherited `Object` constructor.
   */
  function IsPlainObject(v: Value): (b: bool)
    ensures b <==> v.Record? && forall i :: 0 <= i < |v.fields| ==> v.fields[i].0 != ConstructorKey
  {
    v.Record? && FieldIndex(v.fields, ConstructorKey).None?
  }

  /** The JSON-safe trees: primitives, arrays and plain records of JSON-safe trees. */
  predicate IsJson(v: Value) {
    match v
    case Null | Undefined | Str(_) | Num(_) | Bool(_) => true
    case Array(es) => forall i :: 0 <= i < |es| ==> IsJson(es[i])
    case Record(fs) => IsPlainObject(v) && forall i :: 0 <= i < |fs| ==> IsJson(fs[i].1)
    case _ => false
  }

  predicate IsKnownTag(t: string) {
    t == "Date" || t == "Buffer" || t == "Set" || t == "Map"
  }

  /** The record {__t: tag, __v: payload}, fields in that order. */
  function Tagged(tag: string, payload: Value): (r: Value)
    ensures r.Record? && TagOf(r.fields) == Some(tag) && Get(r.fields, PayloadKey) == payload
    ensures IsJson(r) <==> IsJson(payload)
  {
    var fs := [(TagKey, Str(tag)), (PayloadKey, payload)];
    assert FieldIndex(fs, TagKey) == Some(0);
    assert TagKey != PayloadKey by { assert TagKey[2] != PayloadKey[2]; }
    assert FieldIndex(fs[1..], PayloadKey) == Some(0);
    assert FieldIndex(fs, ConstructorKey).None? by {
      assert |TagKey| != |ConstructorKey| && |PayloadKey| != |ConstructorKey|;
    }
    Record(fs)
  }

  // ---------------------------------------------------------------------
  // Property access on a record
  // ---------------------------------------------------------------------

  /** The position of the field named `key`, if the record has one. */
  function FieldIndex(fs: seq<(string, Value)>, key: string): (r: Option<nat>)
    ensures r.Some? ==> r.value < |fs| && fs[r.value].0 == key
    ensures r.Some? ==> forall j :: 0 <= j < r.value ==> fs[j].0 != key
    ensures r.None? ==> forall j :: 0 <= j < |fs| ==> fs[j].0 != key
  {
    if |fs| == 0 then None
    else if fs[0].0 == key then Some(0)
    else match FieldIndex(fs[1..], key)
      case Some(i) => Some(i + 1)
      case None => None
  }

  /** `record[key]`: the field's value, or undefined when there is no such field. */
  function Get(fs: seq<(string, Value)>, key: string): Value {
    match FieldIndex(fs, key)
    case Some(i) => fs[i].1
    case None => Undefined
  }

  /** The tag of a record: its `__t` field when that field holds a string. */
  function TagOf(fs: seq<(string, Value)>): (r: Option<string>)
    ensures r.Some? ==> Get(fs, TagKey) == Str(r.value)
    ensures r.None? ==> !Get(fs, TagKey).Str?
  {
    var t := Get(fs, TagKey);
    if t.Str? then Some(t.s) else None
  }

  predicate HasKnownTag(fs: seq<(string, Value)>) {
    TagOf(fs).Some? && IsKnownTag(TagOf(fs).value)
  }

  /** The first components of a sequence of pairs: the keys of a record or of a Map. */
  function Firsts<K, V>(s: seq<(K, V)>): (ks: seq<K>)
    ensures |ks| == |s| && forall i :: 0 <= i < |s| ==> ks[i] == s[i].0
  {
    seq(|s|, i requires 0 <= i < |s| => s[i].0)
  }

  lemma {:induction false} FieldIndexSameKeys(fs: seq<(string, Value)>, gs: seq<(string, Value)>, key: string)
    requires Firsts(fs) == Firsts(gs)
    ensures FieldIndex(fs, key) == FieldIndex(gs, key)
  {
    if |fs| > 0 && fs[0].0 != key {
      assert Firsts(fs[1..]) == Firsts(gs[1..]) by {
        assert forall i :: 0 <= i < |fs| - 1 ==> Firsts(fs[1..])[i] == Firsts(fs)[i + 1];
        assert forall i :: 0 <= i < |gs| - 1 ==> Firsts(gs[1..])[i] == Firsts(gs)[i + 1];
      }
      FieldIndexSameKeys(fs[1..], gs[1..], key);
    } else if |fs| > 0 {
      assert Firsts(gs)[0] == key;
    }
  }

  // ---------------------------------------------------------------------
  // serialize
  // ---------------------------------------------------------------------

  /** A Map entry on the wire: the two-element array [serialize(key), serialize(value)]. */
  function SerializePair(e: (Value, Value)): (r: Value)
    ensures IsJson(r) && r.Array? && |r.elems| == 2
    decreases e, 0
  {
    Array([Serialize(e.0), Serialize(e.1)])
  }

  /** `serialize`: the JSON-safe image of a value. */
  function Serialize(v: Value): (r: Value)
    decreases v, 1
    ensures IsJson(r)
    ensures v.Other? ==> r == Undefined
  {
    match v
    case Null => Null
    case Undefined | Str(_) | Num(_) | Bool(_) => v
    case Date(t) => Tagged("Date", Num(t))
    case Buffer(bytes) =>
      Tagged("Buffer", Array(seq(|bytes|, i requires 0 <= i < |bytes| => Num(bytes[i]))))
    case Set(items) =>
      Tagged("Set", Array(seq(|items|, i requires 0 <= i < |items| => Serialize(items[i]))))
    case Map(entries) =>
      Tagged("Map", Array(seq(|entries|, i requires 0 <= i < |entries| => SerializePair(entries[i]))))
    case Array(es) =>
      Array(seq(|es|, i requires 0 <= i < |es| => Serialize(es[i])))
    case Record(fs) =>
      if IsPlainObject(v) then Record(seq(|fs|, i requires 0 <= i < |fs| => (fs[i].0, Serialize(fs[i].1))))
      else Undefined
    case Other => Undefined
  }

  // ---------------------------------------------------------------------
  // Runtime coercions used by deserialize
  // ---------------------------------------------------------------------

  /** The Date payloads whose `new Date(payload)` this model covers. */
  predicate DatePayloadModelled(p: Value) {
    (p.Num? && -MaxTime <= p.n <= MaxTime) || p.Null? || p.Bool?
  }

  /** The time value of `new Date(p)`: a number as is, null as 0, a boolean as 0 or 1. */
  function ToTime(p: Value): (t: int)
    requires DatePayloadModelled(p)
    ensures -MaxTime <= t <= MaxTime
    ensures p.Num? ==> t == p.n
  {
    match p
    case Num(n) => n
    case Bool(b) => if b then 1 else 0
    case _ => 0
  }

  /** The array elements `Buffer.from` converts that this model covers. */
  predicate ByteModelled(x: Value) {
    x.Num? || x.Bool? || x.Null? || x.Undefined?
  }

  /** ToUint8: a number modulo 256, a boolean as 0 or 1, null and undefined as 0. */
  function ToUint8(x: Value): (b: Byte)
    requires ByteModelled(x)
    ensures x.Num? && 0 <= x.n < 256 ==> b == x.n
  {
    match x
    case Num(n) => n % 256
    case Bool(t) => if t then 1 else 0
    case _ => 0
  }

  /** The Buffer payloads whose `Buffer.from(payload ?? [])` this model covers. */
  predicate BufferPayloadModelled(p: Value) {
    p.Null? || p.Undefined? || (p.Array? && forall i :: 0 <= i < |p.elems| ==> ByteModelled(p.elems[i]))
  }

  /** The bytes of `Buffer.from(p ?? [])`. */
  function ToBytes(p: Value): (bytes: seq<Byte>)
    requires BufferPayloadModelled(p)
    ensures p.Null? || p.Undefined? ==> bytes == []
    ensures p.Array? ==> |bytes| == |p.elems| && forall i :: 0 <= i < |p.elems| ==> bytes[i] == ToUint8(p.elems[i])
    ensures p.Array? && (forall i :: 0 <= i < |p.elems| ==> p.elems[i].Num? && 0 <= p.elems[i].n < 256) ==>
      forall i :: 0 <= i < |bytes| ==> bytes[i] == p.elems[i].n
  {
    if p.Array? then seq(|p.elems|, i requires 0 <= i < |p.elems| => ToUint8(p.elems[i]))
    else []
  }

  // ---------------------------------------------------------------------
  // new Set(items) and new Map(entries)
  // ---------------------------------------------------------------------

  /**
   * SameValueZero on decoded values: primitives compare by value, and every
   * object `deserialize` builds is fresh, so no two of them are the same.
   */
  predicate PrimitivesDistinct(s: seq<Value>) {
    forall i, j :: 0 <= i < j < |s| && IsPrimitive(s[i]) ==> s[i] != s[j]
  }

  predicate KeysDistinct(s: seq<(Value, Value)>) {
    forall i, j :: 0 <= i < j < |s| && IsPrimitive(s[i].0) ==> s[i].0 != s[j].0
  }

  /** `set.add(x)`: appends `x` unless it is a primitive already present. */
  function SetAdd(acc: seq<Value>, x: Value): (r: seq<Value>)
    ensures acc <= r && |r| <= |acc| + 1
    ensures forall y :: y in r <==> y in acc || y == x
    ensures PrimitivesDistinct(acc) ==> PrimitivesDistinct(r)
  {
    if IsPrimitive(x) && x in acc then acc else acc + [x]
  }

  function AddAll(acc: seq<Value>, items: seq<Value>): (r: seq<Value>)
    requires PrimitivesDistinct(acc)
    ensures PrimitivesDistinct(r)
    ensures forall x :: x in r <==> x in acc || x in items
    ensures |r| <= |acc| + |items|
    decreases |items|
  {
    if items == [] then acc
    else
      var acc' := SetAdd(acc, items[0]);
      assert forall x :: x in items <==> x == items[0] || x in items[1..];
      AddAll(acc', items[1..])
  }

  /** `new Set(items)`: the elements in first-insertion order, primitives once each. */
  function SetFrom(items: seq<Value>): (r: seq<Value>)
    ensures PrimitivesDistinct(r)
    ensures forall x :: x in r <==> x in items
    ensures |r| <= |items|
    ensures forall x :: !IsPrimitive(x) ==> multiset(r)[x] == multiset(items)[x]
  {
    AddAllKeepsObjects([], items);
    AddAll([], items)
  }

  /** Adding to a Set never drops an object: each one is added once per occurrence. */
  lemma {:induction false} AddAllKeepsObjects(acc: seq<Value>, items: seq<Value>)
    requires PrimitivesDistinct(acc)
    ensures forall x :: !IsPrimitive(x) ==> multiset(AddAll(acc, items))[x] == multiset(acc)[x] + multiset(items)[x]
    decreases |items|
  {
    if items != [] {
      assert items == [items[0]] + items[1..];
      AddAllKeepsObjects(SetAdd(acc, items[0]), items[1..]);
    }
  }

  lemma MoveFirst<T>(acc: seq<T>, items: seq<T>)
    requires items != []
    ensures acc + [items[0]] + items[1..] == acc + items
  {
    assert items == [items[0]] + items[1..];
  }

  /** Distinct primitives stay distinct in a prefix, and the next primitive is not in it. */
  lemma DistinctItemsPrefix(acc: seq<Value>, items: seq<Value>)
    requires PrimitivesDistinct(acc + items) && items != []
    ensures PrimitivesDistinct(acc)
    ensures IsPrimitive(items[0]) ==> items[0] !in acc
  {
    var all := acc + items;
    assert forall i :: 0 <= i < |acc| ==> acc[i] == all[i];
    assert items[0] == all[|acc|];
  }

  lemma {:induction false} AddAllDistinct(acc: seq<Value>, items: seq<Value>)
    requires PrimitivesDistinct(acc + items)
    ensures PrimitivesDistinct(acc)
    ensures AddAll(acc, items) == acc + items
    decreases |items|
  {
    if items == [] {
      assert acc + items == acc;
    } else {
      var x := items[0];
      DistinctItemsPrefix(acc, items);
      assert SetAdd(acc, x) == acc + [x];
      assert AddAll(acc, items) == AddAll(acc + [x], items[1..]);
      MoveFirst(acc, items);
      AddAllDistinct(acc + [x], items[1..]);
    }
  }

  /** Elements with distinct primitives go through `new Set` unchanged. */
  lemma SetFromDistinct(items: seq<Value>)
    requires PrimitivesDistinct(items)
    ensures SetFrom(items) == items
  {
    assert [] + items == items;
    AddAllDistinct([], items);
  }

  lemma {:induction false} AddAllAppend(acc: seq<Value>, items: seq<Value>, x: Value)
    requires PrimitivesDistinct(acc)
    ensures AddAll(acc, items + [x]) == SetAdd(AddAll(acc, items), x)
    decreases |items|
  {
    if items != [] {
      assert (items + [x])[1..] == items[1..] + [x];
      AddAllAppend(SetAdd(acc, items[0]), items[1..], x);
    } else {
      assert AddAll(SetAdd(acc, x), []) == SetAdd(acc, x);
    }
  }

  /**
   * Insertion order: one more item at the end of the input is appended to
   * the Set, unless it is a primitive already there, which leaves the Set as
   * it was.
   */
  lemma SetFromAppend(items: seq<Value>, x: Value)
    ensures SetFrom(items + [x]) == if IsPrimitive(x) && x in items then SetFrom(items) else SetFrom(items) + [x]
  {
    AddAllAppend([], items, x);
  }

  /** The position of the primitive key `k` in the entries so far, if present. */
  function KeyIndex(acc: seq<(Value, Value)>, k: Value): (r: Option<nat>)
    ensures r.Some? ==> r.value < |acc| && acc[r.value].0 == k
    ensures r.None? ==> forall j :: 0 <= j < |acc| ==> acc[j].0 != k
  {
    if |acc| == 0 then None
    else if acc[0].0 == k then Some(0)
    else match KeyIndex(acc[1..], k)
      case Some(i) => Some(i + 1)
      case None => None
  }

  /** `map.set(k, x)`: overwrites the value of a primitive key already present, else appends. */
  function MapSet(acc: seq<(Value, Value)>, k: Value, x: Value): (r: seq<(Value, Value)>)
    requires KeysDistinct(acc)
    ensures KeysDistinct(r)
    ensures forall y :: y in Firsts(r) <==> y in Firsts(acc) || y == k
    ensures (k, x) in r
    ensures |r| <= |acc| + 1
    ensures forall e :: e in acc && (e.0 != k || !IsPrimitive(k)) ==> e in r
  {
    if IsPrimitive(k) && KeyIndex(acc, k).Some? then
      var i := KeyIndex(acc, k).value;
      var r := acc[i := (k, x)];
      assert Firsts(r) == Firsts(acc);
      r
    else
      var r := acc + [(k, x)];
      assert Firsts(r) == Firsts(acc) + [k];
      r
  }

  function SetAll(acc: seq<(Value, Value)>, entries: seq<(Value, Value)>): (r: seq<(Value, Value)>)
    requires KeysDistinct(acc)
    ensures KeysDistinct(r)
    ensures forall y :: y in Firsts(r) <==> y in Firsts(acc) || y in Firsts(entries)
    ensures |r| <= |acc| + |entries|
    decreases |entries|
  {
    if entries == [] then acc
    else
      var acc' := MapSet(acc, entries[0].0, entries[0].1);
      assert forall y :: y in Firsts(entries) <==> y == entries[0].0 || y in Firsts(entries[1..]) by {
        assert Firsts(entries) == [entries[0].0] + Firsts(entries[1..]);
      }
      SetAll(acc', entries[1..])
  }

  /** `SetAll` keeps an old entry whose key is not set again (or is an object). */
  lemma {:induction false} SetAllKeepsOld(acc: seq<(Value, Value)>, entries: seq<(Value, Value)>, e: (Value, Value))
    requires KeysDistinct(acc) && e in acc
    requires !IsPrimitive(e.0) || e.0 !in Firsts(entries)
    ensures e in SetAll(acc, entries)
    decreases |entries|
  {
    if entries != [] {
      var acc' := MapSet(acc, entries[0].0, entries[0].1);
      assert Firsts(entries) == [entries[0].0] + Firsts(entries[1..]);
      assert e in acc';
      SetAllKeepsOld(acc', entries[1..], e);
    }
  }

  /**
   * What `SetAll` keeps of the new entries: each one whose key is not set
   * again later (or is an object).
   */
  lemma {:induction false} SetAllKeeps(acc: seq<(Value, Value)>, entries: seq<(Value, Value)>)
    requires KeysDistinct(acc)
    ensures forall i :: 0 <= i < |entries| && LastForKey(entries, i) ==> entries[i] in SetAll(acc, entries)
    decreases |entries|
  {
    if entries != [] {
      var k := entries[0].0;
      var acc' := MapSet(acc, k, entries[0].1);
      var rest := entries[1..];
      SetAllKeeps(acc', rest);
      assert SetAll(acc, entries) == SetAll(acc', rest);
      forall i | 0 <= i < |entries| && LastForKey(entries, i) ensures entries[i] in SetAll(acc, entries) {
        if i == 0 {
          assert forall j :: 0 <= j < |rest| ==> rest[j] == entries[j + 1];
          assert !IsPrimitive(k) || k !in Firsts(rest);
          SetAllKeepsOld(acc', rest, entries[i]);
        } else {
          assert entries[i] == rest[i - 1];
          assert LastForKey(rest, i - 1) by {
            forall j | i - 1 < j < |rest| ensures rest[j].0 != rest[i - 1].0 || !IsPrimitive(rest[i - 1].0) {
              assert rest[j] == entries[j + 1];
            }
          }
        }
      }
    }
  }

  /** Entry `i` is the last one setting its key (or its key is an object, never overwritten). */
  predicate LastForKey(entries: seq<(Value, Value)>, i: nat)
    requires i < |entries|
  {
    forall j :: i < j < |entries| ==> entries[j].0 != entries[i].0 || !IsPrimitive(entries[i].0)
  }

  /**
   * `new Map(entries)`: one entry per primitive key, in first-insertion order;
   * the last value set for a key wins, and every entry that is the last for
   * its key, or has an object as key, is present.
   */
  function MapFrom(entries: seq<(Value, Value)>): (r: seq<(Value, Value)>)
    ensures KeysDistinct(r)
    ensures forall y :: y in Firsts(r) <==> y in Firsts(entries)
    ensures |r| <= |entries|
    ensures |entries| > 0 <==> |r| > 0
    ensures forall i :: 0 <= i < |entries| && LastForKey(entries, i) ==> entries[i] in r
  {
    SetAllKeeps([], entries);
    assert entries != [] ==> Firsts(entries)[0] in Firsts(entries);
    SetAll([], entries)
  }

  /** Distinct keys stay distinct in a prefix, and the next primitive key is not in it. */
  lemma DistinctPrefix(acc: seq<(Value, Value)>, entries: seq<(Value, Value)>)
    requires KeysDistinct(acc + entries) && entries != []
    ensures KeysDistinct(acc)
    ensures IsPrimitive(entries[0].0) ==> KeyIndex(acc, entries[0].0).None?
  {
    var all := acc + entries;
    assert forall i :: 0 <= i < |acc| ==> acc[i] == all[i];
    assert entries[0] == all[|acc|];
  }

  lemma {:induction false} SetAllDistinct(acc: seq<(Value, Value)>, entries: seq<(Value, Value)>)
    requires KeysDistinct(acc + entries)
    ensures KeysDistinct(acc)
    ensures SetAll(acc, entries) == acc + entries
    decreases |entries|
  {
    if entries == [] {
      assert acc + entries == acc;
    } else {
      var e := entries[0];
      DistinctPrefix(acc, entries);
      assert MapSet(acc, e.0, e.1) == acc + [e];
      assert SetAll(acc, entries) == SetAll(acc + [e], entries[1..]);
      MoveFirst(acc, entries);
      SetAllDistinct(acc + [e], entries[1..]);
    }
  }

  /** Entries with distinct primitive keys go through `new Map` unchanged. */
  lemma MapFromDistinct(entries: seq<(Value, Value)>)
    requires KeysDistinct(entries)
    ensures MapFrom(entries) == entries
  {
    assert [] + entries == entries;
    SetAllDistinct([], entries);
  }

  lemma {:induction false} SetAllAppend(acc: seq<(Value, Value)>, entries: seq<(Value, Value)>, e: (Value, Value))
    requires KeysDistinct(acc)
    ensures SetAll(acc, entries + [e]) == MapSet(SetAll(acc, entries), e.0, e.1)
    decreases |entries|
  {
    if entries != [] {
      assert (entries + [e])[1..] == entries[1..] + [e];
      SetAllAppend(MapSet(acc, entries[0].0, entries[0].1), entries[1..], e);
    } else {
      assert SetAll(MapSet(acc, e.0, e.1), []) == MapSet(acc, e.0, e.1);
    }
  }

  /**
   * Insertion order: one more entry at the end of the input replaces, in
   * place, the value of its key when that key is a primitive already in the
   * Map, and is appended otherwise.
   */
  lemma MapFromAppend(entries: seq<(Value, Value)>, e: (Value, Value))
    ensures var m := MapFrom(entries);
      MapFrom(entries + [e]) ==
        if IsPrimitive(e.0) && KeyIndex(m, e.0).Some? then m[KeyIndex(m, e.0).value := e] else m + [e]
  {
    SetAllAppend([], entries, e);
  }

  // ---------------------------------------------------------------------
  // deserialize
  // ---------------------------------------------------------------------

  /** The payload of a record: its `__v` field, undefined when missing. */
  function Payload(fs: seq<(string, Value)>): Value {
    Get(fs, PayloadKey)
  }

  /**
   * The inputs whose decoding this model covers: every Date and Buffer
   * payload that `deserialize` reaches is one `DatePayloadModelled` or
   * `BufferPayloadModelled` admits. Follows the traversal of `Deserialize`.
   */
  predicate Decodable(v: Value)
    decreases v, 1
  {
    match v
    case Array(es) => forall i :: 0 <= i < |es| ==> Decodable(es[i])
    case Record(fs) =>
      var tag := TagOf(fs);
      if !IsPlainObject(v) then true
      else if tag == Some("Date") then DatePayloadModelled(Payload(fs))
      else if tag == Some("Buffer") then BufferPayloadModelled(Payload(fs))
      else if tag == Some("Set") then
        match FieldIndex(fs, PayloadKey)
        case Some(i) => ItemsDecodable(fs[i].1)
        case None => true
      else if tag == Some("Map") then
        match FieldIndex(fs, PayloadKey)
        case Some(i) => EntriesDecodable(fs[i].1)
        case None => true
      else forall j :: 0 <= j < |fs| ==> Decodable(fs[j].1)
    case _ => true
  }

  predicate ItemsDecodable(p: Value)
    decreases p, 0
  {
    p.Array? ==> forall j :: 0 <= j < |p.elems| ==> Decodable(p.elems[j])
  }

  predicate EntriesDecodable(p: Value)
    decreases p, 0
  {
    p.Array? ==> forall j :: 0 <= j < |p.elems| ==> EntryDecodable(p.elems[j])
  }

  predicate EntryDecodable(e: Value)
    decreases e, 0
  {
    e.Array? ==> (|e.elems| > 0 ==> Decodable(e.elems[0])) && (|e.elems| > 1 ==> Decodable(e.elems[1]))
  }

  /** The decoded elements of a Set payload: `Array.isArray(payload) ? payload : []`, each decoded. */
  function DeserializeItems(p: Value): (items: seq<Value>)
    requires ItemsDecodable(p)
    ensures |items| == if p.Array? then |p.elems| else 0
    ensures p.Array? ==> forall j :: 0 <= j < |p.elems| ==> items[j] == Deserialize(p.elems[j])
    decreases p, 0
  {
    if p.Array? then seq(|p.elems|, j requires 0 <= j < |p.elems| => Deserialize(p.elems[j])) else []
  }

  /**
   * One decoded Map entry: an array entry gives its first two elements, a
   * missing one standing for undefined; any other entry gives (undefined, undefined).
   */
  function DeserializeEntry(e: Value): (r: (Value, Value))
    requires EntryDecodable(e)
    ensures !e.Array? || e.elems == [] ==> r == (Undefined, Undefined)
    ensures e.Array? && |e.elems| == 1 ==> r == (Deserialize(e.elems[0]), Undefined)
    ensures e.Array? && |e.elems| >= 2 ==> r == (Deserialize(e.elems[0]), Deserialize(e.elems[1]))
    decreases e, 0
  {
    (if e.Array? && |e.elems| > 0 then Deserialize(e.elems[0]) else Undefined,
     if e.Array? && |e.elems| > 1 then Deserialize(e.elems[1]) else Undefined)
  }

  /** The decoded entries of a Map payload: `Array.isArray(payload) ? payload : []`, each decoded. */
  function DeserializeEntries(p: Value): (entries: seq<(Value, Value)>)
    requires EntriesDecodable(p)
    ensures |entries| == if p.Array? then |p.elems| else 0
    ensures p.Array? ==> forall j :: 0 <= j < |p.elems| ==> entries[j] == DeserializeEntry(p.elems[j])
    decreases p, 0
  {
    if p.Array? then seq(|p.elems|, j requires 0 <= j < |p.elems| => DeserializeEntry(p.elems[j])) else []
  }

  /**
   * `deserialize`: primitives pass through, arrays map element-wise, a record
   * tagged Date, Buffer, Set or Map rebuilds that kind, any other record is
   * rebuilt field by field, and every other object becomes undefined.
   * Where the source decodes `undefined` the model writes `Undefined`,
   * which is what `deserialize(undefined)` returns.
   */
  function Deserialize(v: Value): (r: Value)
    requires Decodable(v)
    ensures IsPrimitive(v) ==> r == v
    ensures v.Array? ==> (r.Array? && |r.elems| == |v.elems| &&
      forall i :: 0 <= i < |v.elems| ==> r.elems[i] == Deserialize(v.elems[i]))
    ensures !IsPrimitive(v) && !v.Array? && !IsPlainObject(v) ==> r == Undefined
    ensures IsPlainObject(v) && TagOf(v.fields) == Some("Date") ==> r == Date(ToTime(Payload(v.fields)))
    ensures IsPlainObject(v) && TagOf(v.fields) == Some("Buffer") ==> r == Buffer(ToBytes(Payload(v.fields)))
    ensures IsPlainObject(v) && TagOf(v.fields) == Some("Set") ==> r.Set? && PrimitivesDistinct(r.items)
    ensures IsPlainObject(v) && TagOf(v.fields) == Some("Map") ==> r.Map? && KeysDistinct(r.entries)
    ensures IsPlainObject(v) && !HasKnownTag(v.fields) ==> r.Record? && Firsts(r.fields) == Firsts(v.fields)
    decreases v, 1
  {
    match v
    case Null | Undefined | Str(_) | Num(_) | Bool(_) => v
    case Array(es) => Array(seq(|es|, i requires 0 <= i < |es| => Deserialize(es[i])))
    case Record(fs) =>
      var tag := TagOf(fs);
      if !IsPlainObject(v) then Undefined
      else if tag == Some("Date") then Date(ToTime(Payload(fs)))
      else if tag == Some("Buffer") then Buffer(ToBytes(Payload(fs)))
      else if tag == Some("Set") then
        Set(SetFrom(match FieldIndex(fs, PayloadKey)
                    case Some(i) => DeserializeItems(fs[i].1)
                    case None => []))
      else if tag == Some("Map") then
        Map(MapFrom(match FieldIndex(fs, PayloadKey)
                    case Some(i) => DeserializeEntries(fs[i].1)
                    case None => []))
      else
        Record(seq(|fs|, j requires 0 <= j < |fs| => (fs[j].0, Deserialize(fs[j].1))))
    case _ => Undefined
  }

  // ---------------------------------------------------------------------
  // Shapes
  // ---------------------------------------------------------------------

  /** A record tagged `tag` whose payload is an array of `n` elements. */
  predicate IsTaggedArray(r: Value, tag: string, n: nat) {
    r.Record? && TagOf(r.fields) == Some(tag) && Payload(r.fields).Array? && |Payload(r.fields).elems| == n
  }

  /**
   * What `serialize` makes of each kind: primitives unchanged; a Date the
   * record {__t: "Date", __v: time}; a Buffer, Set or Map a tagged array
   * with one element per byte, item or entry, in order; an array the array
   * of serialized elements; a plain record the same keys in the same order,
   * undefined-valued ones included; anything else undefined.
   */
  lemma SerializeShape(v: Value)
    ensures IsPrimitive(v) ==> Serialize(v) == v
    ensures v.Date? ==> Serialize(v) == Tagged("Date", Num(v.time))
    ensures v.Buffer? ==> (IsTaggedArray(Serialize(v), "Buffer", |v.bytes|) &&
      forall i :: 0 <= i < |v.bytes| ==> Payload(Serialize(v).fields).elems[i] == Num(v.bytes[i]))
    ensures v.Set? ==> (IsTaggedArray(Serialize(v), "Set", |v.items|) &&
      forall i :: 0 <= i < |v.items| ==> Payload(Serialize(v).fields).elems[i] == Serialize(v.items[i]))
    ensures v.Map? ==> (IsTaggedArray(Serialize(v), "Map", |v.entries|) &&
      forall i :: 0 <= i < |v.entries| ==>
        Payload(Serialize(v).fields).elems[i] == Array([Serialize(v.entries[i].0), Serialize(v.entries[i].1)]))
    ensures v.Array? ==> (Serialize(v).Array? && |Serialize(v).elems| == |v.elems| &&
      forall i :: 0 <= i < |v.elems| ==> Serialize(v).elems[i] == Serialize(v.elems[i]))
    ensures IsPlainObject(v) ==> (Serialize(v).Record? && Firsts(Serialize(v).fields) == Firsts(v.fields) &&
      forall i :: 0 <= i < |v.fields| ==> Serialize(v).fields[i].1 == Serialize(v.fields[i].1))
    ensures v.Other? || (v.Record? && !IsPlainObject(v)) ==> Serialize(v) == Undefined
  {
  }

  /** A record with an own `constructor` field is not a plain object: both directions give undefined. */
  lemma OwnConstructorField(fs: seq<(string, Value)>)
    requires FieldIndex(fs, ConstructorKey).Some?
    ensures Serialize(Record(fs)) == Undefined
    ensures Decodable(Record(fs)) && Deserialize(Record(fs)) == Undefined
  {
  }

  /** `serialize` is the identity on JSON-safe trees, in particular on every primitive. */
  lemma {:induction false} SerializeJsonIdentity(w: Value)
    requires IsJson(w)
    ensures Serialize(w) == w
  {
    match w
    case Array(es) =>
      forall i | 0 <= i < |es| ensures Serialize(es[i]) == es[i] {
        SerializeJsonIdentity(es[i]);
      }
      assert Serialize(w).elems == es;
    case Record(fs) =>
      forall i | 0 <= i < |fs| ensures Serialize(fs[i].1) == fs[i].1 {
        SerializeJsonIdentity(fs[i].1);
      }
      assert Serialize(w).fields == fs;
    case _ =>
  }

  /** Serializing an already serialized value changes nothing. */
  lemma SerializeIdempotent(v: Value)
    ensures Serialize(Serialize(v)) == Serialize(v)
  {
    SerializeJsonIdentity(Serialize(v));
  }

  // ---------------------------------------------------------------------
  // Round trip
  // ---------------------------------------------------------------------

  /**
   * The values `deserialize(serialize(v))` gives back: valid dates, sets
   * whose primitive elements are distinct and maps whose primitive keys are
   * distinct (as a runtime Set or Map holds them), no object kind the codec
   * does not know, and no record that is not plain or whose `__t` is one of
   * the four tags.
   */
  predicate Representable(v: Value) {
    match v
    case Date(t) => -MaxTime <= t <= MaxTime
    case Set(items) => PrimitivesDistinct(items) && forall i :: 0 <= i < |items| ==> Representable(items[i])
    case Map(es) =>
      KeysDistinct(es) && forall i :: 0 <= i < |es| ==> Representable(es[i].0) && Representable(es[i].1)
    case Array(es) => forall i :: 0 <= i < |es| ==> Representable(es[i])
    case Record(fs) => IsPlainObject(v) && !HasKnownTag(fs) && forall i :: 0 <= i < |fs| ==> Representable(fs[i].1)
    case Other => false
    case _ => true
  }

  lemma {:induction false} RoundTrip(v: Value)
    requires Representable(v)
    ensures Decodable(Serialize(v)) && Deserialize(Serialize(v)) == v
    decreases v, 1
  {
    match v
    case Null | Undefined | Str(_) | Num(_) | Bool(_) =>
    case Date(t) =>
      assert Payload(Serialize(v).fields) == Num(t);
    case Buffer(bytes) =>
      var p := Array(seq(|bytes|, i requires 0 <= i < |bytes| => Num(bytes[i])));
      assert Serialize(v) == Tagged("Buffer", p);
      assert ToBytes(p) == bytes;
    case Set(_) => RoundTripSet(v);
    case Map(_) => RoundTripMap(v);
    case Array(_) => RoundTripArray(v);
    case Record(_) => RoundTripRecord(v);
  }

  lemma {:induction false} RoundTripSet(v: Value)
    requires v.Set? && Representable(v)
    ensures Decodable(Serialize(v)) && Deserialize(Serialize(v)) == v
    decreases v, 0
  {
    var items := v.items;
    forall i | 0 <= i < |items|
      ensures Decodable(Serialize(items[i])) && Deserialize(Serialize(items[i])) == items[i]
    {
      RoundTrip(items[i]);
    }
    var p := Array(seq(|items|, i requires 0 <= i < |items| => Serialize(items[i])));
    assert Serialize(v) == Tagged("Set", p);
    PayloadAt(Serialize(v).fields);
    assert ItemsDecodable(p);
    assert DeserializeItems(p) == items;
    SetFromDistinct(items);
  }

  lemma {:induction false} RoundTripMap(v: Value)
    requires v.Map? && Representable(v)
    ensures Decodable(Serialize(v)) && Deserialize(Serialize(v)) == v
    decreases v, 0
  {
    var es := v.entries;
    forall i | 0 <= i < |es|
      ensures Decodable(Serialize(es[i].0)) && Deserialize(Serialize(es[i].0)) == es[i].0
      ensures Decodable(Serialize(es[i].1)) && Deserialize(Serialize(es[i].1)) == es[i].1
    {
      RoundTrip(es[i].0);
      RoundTrip(es[i].1);
    }
    var p := Array(seq(|es|, i requires 0 <= i < |es| => SerializePair(es[i])));
    assert Serialize(v) == Tagged("Map", p);
    PayloadAt(Serialize(v).fields);
    assert EntriesDecodable(p);
    assert DeserializeEntries(p) == es;
    MapFromDistinct(es);
  }

  lemma {:induction false} RoundTripArray(v: Value)
    requires v.Array? && Representable(v)
    ensures Decodable(Serialize(v)) && Deserialize(Serialize(v)) == v
    decreases v, 0
  {
    var es := v.elems;
    forall i | 0 <= i < |es|
      ensures Decodable(Serialize(es[i])) && Deserialize(Serialize(es[i])) == es[i]
    {
      RoundTrip(es[i]);
    }
    assert Deserialize(Serialize(v)).elems == es;
  }

  lemma {:induction false} RoundTripRecord(v: Value)
    requires v.Record? && Representable(v)
    ensures Decodable(Serialize(v)) && Deserialize(Serialize(v)) == v
    decreases v, 0
  {
    var fs := v.fields;
    forall i | 0 <= i < |fs|
      ensures Decodable(Serialize(fs[i].1)) && Deserialize(Serialize(fs[i].1)) == fs[i].1
    {
      RoundTrip(fs[i].1);
    }
    var gs := Serialize(v).fields;
    assert Firsts(gs) == Firsts(fs);
    FieldIndexSameKeys(gs, fs, TagKey);
    FieldIndexSameKeys(gs, fs, ConstructorKey);
    assert TagOf(gs) == TagOf(fs) by {
      match FieldIndex(fs, TagKey)
      case Some(i) =>
        assert gs[i].1 == Serialize(fs[i].1);
        assert gs[i].1.Str? <==> fs[i].1.Str?;
      case None =>
    }
    assert Decodable(Serialize(v));
    assert Deserialize(Serialize(v)).fields == fs;
  }

  // ---------------------------------------------------------------------
  // Malformed and untagged input
  // ---------------------------------------------------------------------

  lemma PayloadAt(fs: seq<(string, Value)>)
    ensures match FieldIndex(fs, PayloadKey)
            case Some(i) => Payload(fs) == fs[i].1
            case None => Payload(fs) == Undefined
  {
  }

  /**
   * A record tagged Set or Map decodes its payload, the `__v` field or
   * undefined when missing: a Set is `new Set` of the decoded items, a Map
   * `new Map` of the decoded entries, so the laws of `SetFrom` and `MapFrom`
   * apply to every such record.
   */
  lemma DeserializeTagged(fs: seq<(string, Value)>)
    requires IsPlainObject(Record(fs)) && Decodable(Record(fs))
    ensures TagOf(fs) == Some("Set") ==>
      ItemsDecodable(Payload(fs)) && Deserialize(Record(fs)) == Set(SetFrom(DeserializeItems(Payload(fs))))
    ensures TagOf(fs) == Some("Map") ==>
      EntriesDecodable(Payload(fs)) && Deserialize(Record(fs)) == Map(MapFrom(DeserializeEntries(Payload(fs))))
  {
    PayloadAt(fs);
  }

  /** A Set payload repeating a primitive decodes to a Set holding it once. */
  lemma DeserializeRepeatedItem(fs: seq<(string, Value)>, x: Value)
    requires IsPlainObject(Record(fs)) && TagOf(fs) == Some("Set") && Payload(fs) == Array([x, x]) && IsPrimitive(x)
    ensures Decodable(Record(fs)) && Deserialize(Record(fs)) == Set([x])
  {
    var p := Payload(fs);
    PayloadAt(fs);
    assert ItemsDecodable(p);
    assert Decodable(Record(fs));
    DeserializeTagged(fs);
    assert DeserializeItems(p) == [x] + [x];
    SetFromAppend([], x);
    assert [] + [x] == [x];
    SetFromAppend([x], x);
  }

  /** A Set record whose payload is not an array decodes to the empty set. */
  lemma DeserializeNonArraySet(fs: seq<(string, Value)>)
    requires IsPlainObject(Record(fs)) && TagOf(fs) == Some("Set") && !Payload(fs).Array?
    ensures Decodable(Record(fs)) && Deserialize(Record(fs)) == Set([])
  {
    PayloadAt(fs);
  }

  /** A Map record whose payload is not an array decodes to the empty map. */
  lemma DeserializeNonArrayMap(fs: seq<(string, Value)>)
    requires IsPlainObject(Record(fs)) && TagOf(fs) == Some("Map") && !Payload(fs).Array?
    ensures Decodable(Record(fs)) && Deserialize(Record(fs)) == Map([])
  {
    PayloadAt(fs);
  }

  /** A Buffer record whose payload is null or undefined (or missing) decodes to the empty buffer. */
  lemma DeserializeNullishBuffer(fs: seq<(string, Value)>)
    requires IsPlainObject(Record(fs)) && TagOf(fs) == Some("Buffer") && (Payload(fs).Null? || Payload(fs).Undefined?)
    ensures Decodable(Record(fs)) && Deserialize(Record(fs)) == Buffer([])
  {
  }

  /**
   * A Map payload with a single entry: a non-array entry gives
   * (undefined, undefined); an array entry gives its first two elements
   * decoded, undefined for each one missing.
   */
  lemma DeserializeSingleEntryMap(fs: seq<(string, Value)>, e: Value)
    requires IsPlainObject(Record(fs)) && TagOf(fs) == Some("Map") && Payload(fs) == Array([e]) && EntryDecodable(e)
    ensures Decodable(Record(fs))
    ensures !e.Array? ==> Deserialize(Record(fs)) == Map([(Undefined, Undefined)])
    ensures e.Array? && |e.elems| == 0 ==> Deserialize(Record(fs)) == Map([(Undefined, Undefined)])
    ensures e.Array? && |e.elems| == 1 ==> Deserialize(Record(fs)) == Map([(Deserialize(e.elems[0]), Undefined)])
    ensures e.Array? && |e.elems| >= 2 ==>
      Deserialize(Record(fs)) == Map([(Deserialize(e.elems[0]), Deserialize(e.elems[1]))])
  {
    PayloadAt(fs);
    var p := Array([e]);
    assert EntriesDecodable(p);
    assert Decodable(Record(fs));
    DeserializeTagged(fs);
    var entries := DeserializeEntries(p);
    assert entries == [DeserializeEntry(e)];
    assert MapFrom(entries) == entries by {
      assert KeysDistinct(entries);
      MapFromDistinct(entries);
    }
  }

  /**
   * A record whose `__t` is missing, not a string, or a string other than the
   * four tags decodes field by field: same keys in the same order (`__t` and
   * `__v` included), each value decoded.
   */
  lemma DeserializeUntagged(fs: seq<(string, Value)>)
    requires IsPlainObject(Record(fs)) && !HasKnownTag(fs) && forall j :: 0 <= j < |fs| ==> Decodable(fs[j].1)
    ensures Decodable(Record(fs))
    ensures Deserialize(Record(fs)).Record? && Firsts(Deserialize(Record(fs)).fields) == Firsts(fs)
    ensures forall j :: 0 <= j < |fs| ==> Deserialize(Record(fs)).fields[j].1 == Deserialize(fs[j].1)
  {
  }
}

=== FILE: downtime.dfy ===
/**
 * Merging downtime logs: several lists of [start, end] intervals are
 * flattened, sorted by start then end, and swept once, an interval that
 * starts no later than the running end (touching included) extending the
 * current output interval, any other one opening a new output interval.
 *
 * Dates are their millisecond time values. Intervals are values, so the
 * input lists cannot be changed by the merge and every output interval is
 * a new value.
 */
module Downtime {

  /** A downtime `[start, end]`, both ends as milliseconds since the epoch. */
  datatype Interval = Interval(start: int, end: int)

  /** The comparator of the sort: by start, then by end. */
  predicate LexLeq(a: Interval, b: Interval) {
    a.start < b.start || (a.start == b.start && a.end <= b.end)
  }

  /** The comparator orders intervals totally: intervals with equal keys are equal. */
  lemma LexOrder(a: Interval, b: Interval, c: Interval)
    ensures LexLeq(a, a)
    ensures LexLeq(a, b) || LexLeq(b, a)
    ensures LexLeq(a, b) && LexLeq(b, c) ==> LexLeq(a, c)
    ensures LexLeq(a, b) && LexLeq(b, a) ==> a == b
  {
  }

  predicate Sorted(s: seq<Interval>) {
    forall i, j :: 0 <= i < j < |s| ==> LexLeq(s[i], s[j])
  }

  /** Every interval starts no later than it ends. */
  predicate WellFormed(s: seq<Interval>) {
    forall i :: 0 <= i < |s| ==> s[i].start <= s[i].end
  }

  /**
   * `o` holds the instant `t`. Instants are real numbers, so an interval
   * covers the whole stretch between its ends and not only the whole
   * milliseconds: `[0, 2]` and `[3, 5]` leave the gap `(2, 3)` uncovered.
   */
  predicate Contains(o: Interval, t: real) {
    o.start as real <= t <= o.end as real
  }

  /** `t` lies in at least one interval of `s`. */
  predicate InUnion(s: seq<Interval>, t: real) {
    exists i :: 0 <= i < |s| && Contains(s[i], t)
  }

  predicate Within(a: Interval, o: Interval) {
    o.start <= a.start && a.end <= o.end
  }

  /** `a` lies inside some interval of `m`. */
  predicate Covered(a: Interval, m: seq<Interval>) {
    exists i :: 0 <= i < |m| && Within(a, m[i])
  }

  predicate StartsIn(x: int, s: seq<Interval>) {
    exists a :: a in s && a.start == x
  }

  predicate EndsIn(x: int, s: seq<Interval>) {
    exists a :: a in s && a.end == x
  }

  /** Consecutive intervals are apart: each starts after the previous one ends. */
  predicate Separated(m: seq<Interval>) {
    forall i :: 0 <= i < |m| - 1 ==> m[i].end < m[i + 1].start
  }

  predicate Ascending(m: seq<Interval>) {
    forall i, j :: 0 <= i < j < |m| ==> m[i].start <= m[j].start
  }

  // ---------------------------------------------------------------------
  // Flattening and sorting
  // ---------------------------------------------------------------------

  /** `args.flat()`: the lists one after the other. */
  function Flatten(logs: seq<seq<Interval>>): (r: seq<Interval>)
    ensures forall a :: a in r <==> exists k :: 0 <= k < |logs| && a in logs[k]
    ensures r == [] <==> forall k :: 0 <= k < |logs| ==> logs[k] == []
  {
    if logs == [] then []
    else
      var r := logs[0] + Flatten(logs[1..]);
      assert forall k :: 1 <= k < |logs| ==> logs[k] == logs[1..][k - 1];
      r
  }

  function Insert(x: Interval, s: seq<Interval>): (r: seq<Interval>)
    requires Sorted(s)
    ensures Sorted(r)
    ensures multiset(r) == multiset(s) + multiset{x}
    ensures forall y :: y in r <==> y in s || y == x
  {
    if s == [] then [x]
    else if LexLeq(x, s[0]) then [x] + s
    else
      var rest := Insert(x, s[1..]);
      assert s == [s[0]] + s[1..];
      assert forall y :: y in rest ==> LexLeq(s[0], y);
      [s[0]] + rest
  }

  /** The sorted copy `slice().sort(...)`: ordered by `LexLeq`, the same intervals. */
  function SortIntervals(s: seq<Interval>): (r: seq<Interval>)
    ensures Sorted(r)
    ensures multiset(r) == multiset(s)
  {
    if s == [] then []
    else
      assert s == [s[0]] + s[1..];
      Insert(s[0], SortIntervals(s[1..]))
  }

  // ---------------------------------------------------------------------
  // Facts used by the sweep
  // ---------------------------------------------------------------------

  /** Under well-formed intervals, separation of neighbours is separation of all pairs. */
  lemma {:induction false} SeparatedPairwise(m: seq<Interval>)
    requires Separated(m) && WellFormed(m)
    ensures forall i, j :: 0 <= i < j < |m| ==> m[i].end < m[j].start
  {
    if |m| > 1 {
      var m' := m[..|m| - 1];
      SeparatedPairwise(m');
      forall i | 0 <= i < |m| - 1 ensures m[i].end < m[|m| - 1].start {
        assert m[i] == m'[i];
        if i < |m| - 2 {
          assert m[i].end < m[|m| - 2].start;
        }
      }
    }
  }

  // ---------------------------------------------------------------------
  // The sweep
  // ---------------------------------------------------------------------

  /** One step of the sweep: how the output so far absorbs the next interval of the sorted input. */
  function Step(m: seq<Interval>, iv: Interval): (r: seq<Interval>)
    ensures r != [] && |m| <= |r| <= |m| + 1
    ensures m != [] ==> r[..|m| - 1] == m[..|m| - 1]
    ensures iv.end <= r[|r| - 1].end
    ensures m != [] && iv.start <= m[|m| - 1].end ==> |r| == |m| && r[|r| - 1].start == m[|m| - 1].start
  {
    if m == [] || iv.start > m[|m| - 1].end then m + [iv]
    else if iv.end > m[|m| - 1].end then m[..|m| - 1] + [Interval(m[|m| - 1].start, iv.end)]
    else m
  }

  function Max(a: int, b: int): int {
    if a < b then b else a
  }

  /**
   * An interval starting no later than the running end, touching included,
   * is absorbed: the running end becomes the larger of the two ends and
   * nothing else changes. Any other interval is appended as it is.
   */
  lemma StepCases(m: seq<Interval>, iv: Interval)
    ensures m != [] && iv.start <= m[|m| - 1].end ==>
      Step(m, iv) == m[..|m| - 1] + [Interval(m[|m| - 1].start, Max(m[|m| - 1].end, iv.end))]
    ensures m == [] || iv.start > m[|m| - 1].end ==> Step(m, iv) == m + [iv]
  {
    if m != [] && iv.start <= m[|m| - 1].end && iv.end <= m[|m| - 1].end {
      assert m == m[..|m| - 1] + [m[|m| - 1]];
    }
  }

  /** `t` lies in one of the first `k` intervals of `s`. */
  predicate InPrefix(s: seq<Interval>, k: nat, t: real)
    requires k <= |s|
  {
    exists j :: 0 <= j < k && Contains(s[j], t)
  }

  /** Shape of the output after `k` steps: ascending, apart, no later than what is still to come. */
  predicate SweepOrder(s: seq<Interval>, k: nat, m: seq<Interval>) {
    && k <= |s|
    && (m == [] <==> k == 0)
    && |m| <= k
    && Separated(m)
    && Ascending(m)
    && (forall i, j :: 0 <= i < |m| && k <= j < |s| ==> m[i].start <= s[j].start)
    && (WellFormed(s) ==> WellFormed(m))
  }

  /** Every output endpoint after `k` steps is an endpoint of one of the first `k` inputs. */
  predicate SweepFrom(s: seq<Interval>, k: nat, m: seq<Interval>)
    requires k <= |s|
  {
    forall i :: 0 <= i < |m| ==>
      (exists j :: 0 <= j < k && s[j].start == m[i].start) && (exists j :: 0 <= j < k && s[j].end == m[i].end)
  }

  /** Each of the first `k` inputs lies inside an output interval. */
  predicate SweepCovers(s: seq<Interval>, k: nat, m: seq<Interval>)
    requires k <= |s|
  {
    forall j :: 0 <= j < k ==> Covered(s[j], m)
  }

  /** The output covers no instant the first `k` inputs do not. */
  ghost predicate SweepSound(s: seq<Interval>, k: nat, m: seq<Interval>)
    requires k <= |s|
  {
    forall t: real :: InUnion(m, t) ==> InPrefix(s, k, t)
  }

  lemma StepOrder(s: seq<Interval>, k: nat, m: seq<Interval>)
    requires Sorted(s) && k < |s| && SweepOrder(s, k, m)
    ensures SweepOrder(s, k + 1, Step(m, s[k]))
  {
    var iv := s[k];
    var m' := Step(m, iv);
    if m != [] && iv.start <= m[|m| - 1].end {
      assert forall i :: 0 <= i < |m| ==> m'[i].start == m[i].start;
    }
  }

  lemma StepFrom(s: seq<Interval>, k: nat, m: seq<Interval>)
    requires k < |s| && SweepFrom(s, k, m)
    ensures SweepFrom(s, k + 1, Step(m, s[k]))
  {
    var iv := s[k];
    var m' := Step(m, iv);
    forall i | 0 <= i < |m'|
      ensures exists j :: 0 <= j < k + 1 && s[j].start == m'[i].start
      ensures exists j :: 0 <= j < k + 1 && s[j].end == m'[i].end
    {
      if i < |m| {
        var a :| 0 <= a < k && s[a].start == m[i].start;
        assert m'[i].start == m[i].start;
        if m'[i].end == m[i].end {
          var b :| 0 <= b < k && s[b].end == m[i].end;
        } else {
          assert m'[i].end == s[k].end;
        }
      } else {
        assert m'[i] == s[k];
      }
    }
  }

  lemma StepCovers(s: seq<Interval>, k: nat, m: seq<Interval>)
    requires k < |s| && SweepOrder(s, k, m) && SweepCovers(s, k, m)
    ensures SweepCovers(s, k + 1, Step(m, s[k]))
  {
    var iv := s[k];
    var m' := Step(m, iv);
    forall j | 0 <= j < k + 1 ensures Covered(s[j], m') {
      if j < k {
        var i :| 0 <= i < |m| && Within(s[j], m[i]);
        assert Within(s[j], m'[i]);
      } else {
        if m != [] {
          assert m[|m| - 1].start <= iv.start;
        }
        assert Within(iv, m'[|m'| - 1]);
      }
    }
  }

  lemma StepSound(s: seq<Interval>, k: nat, m: seq<Interval>)
    requires k < |s| && SweepSound(s, k, m)
    ensures SweepSound(s, k + 1, Step(m, s[k]))
  {
    var iv := s[k];
    var m' := Step(m, iv);
    forall t: real | InUnion(m', t) ensures InPrefix(s, k + 1, t) {
      var i :| 0 <= i < |m'| && Contains(m'[i], t);
      if i < |m| && Contains(m[i], t) {
        assert InUnion(m, t);
        var j :| 0 <= j < k && Contains(s[j], t);
      } else {
        assert Contains(s[k], t);
      }
    }
  }

  /** A permutation of `flat` has the same instants in its union. */
  lemma UnionOfPermutation(s: seq<Interval>, flat: seq<Interval>, t: real)
    requires multiset(s) == multiset(flat) && InPrefix(s, |s|, t)
    ensures InUnion(flat, t)
  {
    var j :| 0 <= j < |s| && Contains(s[j], t);
    assert s[j] in multiset(flat);
    var i :| 0 <= i < |flat| && flat[i] == s[j];
  }

  /** The endpoints of the output come from the flattened input. */
  lemma EndpointsFromInput(flat: seq<Interval>, s: seq<Interval>, m: seq<Interval>)
    requires multiset(s) == multiset(flat) && SweepFrom(s, |s|, m)
    ensures forall o :: o in m ==> StartsIn(o.start, flat) && EndsIn(o.end, flat)
  {
    forall o | o in m ensures StartsIn(o.start, flat) && EndsIn(o.end, flat) {
      var i :| 0 <= i < |m| && m[i] == o;
      var a :| 0 <= a < |s| && s[a].start == o.start;
      var b :| 0 <= b < |s| && s[b].end == o.end;
      assert s[a] in multiset(flat) && s[b] in multiset(flat);
    }
  }

  /** Every interval of the flattened input lies inside an output interval. */
  lemma InputCovered(flat: seq<Interval>, s: seq<Interval>, m: seq<Interval>)
    requires multiset(s) == multiset(flat) && SweepCovers(s, |s|, m)
    ensures forall a :: a in flat ==> Covered(a, m)
  {
    forall a | a in flat ensures Covered(a, m) {
      assert a in multiset(s);
      var j :| 0 <= j < |s| && s[j] == a;
    }
  }

  /** Well-formed input makes the output well formed and pairwise apart. */
  lemma OutputApart(flat: seq<Interval>, s: seq<Interval>, m: seq<Interval>)
    requires multiset(s) == multiset(flat) && SweepOrder(s, |s|, m) && WellFormed(flat)
    ensures WellFormed(m) && forall i, j :: 0 <= i < j < |m| ==> m[i].end < m[j].start
  {
    forall i | 0 <= i < |s| ensures s[i].start <= s[i].end {
      assert s[i] in multiset(flat);
      var j :| 0 <= j < |flat| && flat[j] == s[i];
    }
    SeparatedPairwise(m);
  }

  /**
   * The body of the sweep loop: a first interval, or one starting after the
   * running end, is pushed; one reaching past the running end extends the
   * last output interval; any other one is already covered.
   */
  method Absorb(merged: seq<Interval>, iv: Interval) returns (r: seq<Interval>)
    ensures r == Step(merged, iv)
  {
    r := merged;
    if r == [] {
      r := [iv];
    } else {
      var last := r[|r| - 1];
      if iv.start > last.end {
        r := r + [iv];
      } else if iv.end > last.end {
        r := r[..|r| - 1] + [Interval(last.start, iv.end)];
      }
    }
  }

  /** The loop of `merge` over the sorted copy `s`. */
  method Sweep(s: seq<Interval>) returns (merged: seq<Interval>)
    requires Sorted(s)
    ensures SweepOrder(s, |s|, merged) && SweepFrom(s, |s|, merged)
    ensures SweepCovers(s, |s|, merged) && SweepSound(s, |s|, merged)
  {
    merged := [];
    for k := 0 to |s|
      invariant SweepOrder(s, k, merged)
      invariant SweepFrom(s, k, merged)
      invariant SweepCovers(s, k, merged)
      invariant SweepSound(s, k, merged)
    {
      StepOrder(s, k, merged);
      StepFrom(s, k, merged);
      StepCovers(s, k, merged);
      StepSound(s, k, merged);
      merged := Absorb(merged, s[k]);
    }
  }

  /**
   * A gap in the input splits the output: when an instant `t` between the
   * end of `a` and the start of `b` lies in no input interval, an output
   * that covers only input instants has no interval holding both `a` and `b`.
   */
  lemma GapSplitsOutput(flat: seq<Interval>, m: seq<Interval>, a: Interval, b: Interval, t: real)
    requires forall t: real :: InUnion(m, t) ==> InUnion(flat, t)
    requires a.start <= a.end && b.start <= b.end
    requires a.end as real < t < b.start as real && !InUnion(flat, t)
    ensures forall o :: o in m ==> !(Within(a, o) && Within(b, o))
  {
    forall o | o in m ensures !(Within(a, o) && Within(b, o)) {
      assert Within(a, o) && Within(b, o) ==> Contains(o, t);
      assert Contains(o, t) ==> InUnion(m, t);
    }
  }

  /**
   * The gap rule on the logs `[[0, 2], [3, 5]]`: the instant 2.5 lies in
   * neither interval, so no output covering only their instants holds `[0, 5]`.
   */
  lemma GapKept(m: seq<Interval>)
    requires forall t: real :: InUnion(m, t) ==> InUnion([Interval(0, 2), Interval(3, 5)], t)
    ensures Interval(0, 5) !in m
  {
    GapSplitsOutput([Interval(0, 2), Interval(3, 5)], m, Interval(0, 2), Interval(3, 5), 2.5);
    assert Within(Interval(0, 2), Interval(0, 5)) && Within(Interval(3, 5), Interval(0, 5));
  }

  // ---------------------------------------------------------------------
  // merge
  // ---------------------------------------------------------------------

  /**
   * `merge(...logs)`: the union of the logs as ascending, strictly apart
   * intervals; every endpoint comes from the input and every input interval
   * lies inside one output interval.
   */
  method Merge(logs: seq<seq<Interval>>) returns (merged: seq<Interval>)
    ensures merged == [] <==> Flatten(logs) == []
    ensures |merged| <= |Flatten(logs)|
    ensures Ascending(merged) && Separated(merged)
    ensures forall o :: o in merged ==> StartsIn(o.start, Flatten(logs)) && EndsIn(o.end, Flatten(logs))
    ensures forall a :: a in Flatten(logs) ==> Covered(a, merged)
    ensures forall t: real :: InUnion(merged, t) ==> InUnion(Flatten(logs), t)
    ensures WellFormed(Flatten(logs)) ==>
      (WellFormed(merged) && forall i, j :: 0 <= i < j < |merged| ==> merged[i].end < merged[j].start)
  {
    var flattened := Flatten(logs);
    if |flattened| == 0 {
      return [];
    }
    var s := SortIntervals(flattened);
    merged := Sweep(s);
    assert |s| == |flattened| by {
      assert |multiset(s)| == |multiset(flattened)|;
    }
    forall t: real | InUnion(merged, t) ensures InUnion(flattened, t) {
      UnionOfPermutation(s, flattened, t);
    }
    EndpointsFromInput(flattened, s, merged);
    InputCovered(flattened, s, merged);
    if WellFormed(flattened) {
      OutputApart(flattened, s, merged);
    }
  }
}

=== FILE: object_id.dfy ===
/**
 * 14-byte object identifiers: one type byte, a 48-bit big-endian timestamp,
 * four random bytes fixed per process and a 24-bit big-endian counter that
 * advances by one (modulo 2^24) with every identifier made.
 *
 * The process-wide random bytes and counter live in a `ProcessState`
 * object; where the source draws them from a random source and reads the
 * clock, the model takes them as arguments.
 */
module ObjectIds {
  import opened Wrappers

  const IdLength: nat := 14
  const RandomLength: nat := 4
  const CounterWidth: nat := 3
  const TimestampWidth: nat := 6
  /** The counter wraps at 2^24 (`& 0xffffff`). */
  const CounterModulus: nat := 0x100_0000
  /** `writeUIntBE(value, offset, 6)` accepts values below 2^48. */
  const TimestampLimit: nat := 0x1_0000_0000_0000

  function Pow256(n: nat): (r: nat)
    ensures r >= 1
  {
    if n == 0 then 1 else 256 * Pow256(n - 1)
  }

  // ---------------------------------------------------------------------
  // Big-endian unsigned integers
  // ---------------------------------------------------------------------

  /** The `width` big-endian base-256 digits of `v` (its low `width` bytes). */
  function BigEndian(v: nat, width: nat): (bs: seq<Byte>)
    ensures |bs| == width
  {
    if width == 0 then [] else BigEndian(v / 256, width - 1) + [v % 256]
  }

  /** `readUIntBE`: the unsigned integer whose big-endian digits are `bs`. */
  function FromBigEndian(bs: seq<Byte>): (v: nat)
    ensures v < Pow256(|bs|)
  {
    if bs == [] then 0 else FromBigEndian(bs[..|bs| - 1]) * 256 + bs[|bs| - 1]
  }

  /** Decoding the digits of a value that fits gives the value back. */
  lemma {:induction false} FromBigEndianOfBigEndian(v: nat, width: nat)
    requires v < Pow256(width)
    ensures FromBigEndian(BigEndian(v, width)) == v
  {
    if width > 0 {
      var bs := BigEndian(v, width);
      assert bs[..width - 1] == BigEndian(v / 256, width - 1);
      assert v / 256 < Pow256(width - 1);
      FromBigEndianOfBigEndian(v / 256, width - 1);
    }
  }

  /** Encoding the value of some digits gives the digits back. */
  lemma {:induction false} BigEndianOfFromBigEndian(bs: seq<Byte>)
    ensures BigEndian(FromBigEndian(bs), |bs|) == bs
  {
    if bs != [] {
      var n := |bs|;
      var v := FromBigEndian(bs);
      assert v / 256 == FromBigEndian(bs[..n - 1]);
      assert v % 256 == bs[n - 1];
      BigEndianOfFromBigEndian(bs[..n - 1]);
      assert bs == bs[..n - 1] + [bs[n - 1]];
    }
  }

  // ---------------------------------------------------------------------
  // The byte layout
  // ---------------------------------------------------------------------

  /** `floor(type) & 0xff` for an integer type: its low byte. */
  function TypeByte(tp: int): (b: Byte)
    ensures (tp - b) % 256 == 0
    ensures 0 <= tp < 256 ==> b == tp
  {
    tp % 256
  }

  /** The 14 bytes of an identifier: type, timestamp, random bytes, counter. */
  function Layout(tp: int, timestamp: nat, random: seq<Byte>, counter: nat): (id: seq<Byte>)
    requires |random| == RandomLength
    ensures |id| == IdLength && id[0] == TypeByte(tp)
    ensures id[1..7] == BigEndian(timestamp, TimestampWidth)
    ensures id[7..11] == random
    ensures id[11..] == BigEndian(counter, CounterWidth)
  {
    [TypeByte(tp)] + BigEndian(timestamp, TimestampWidth) + random + BigEndian(counter, CounterWidth)
  }

  /** Each field of the layout can be read back from its bytes. */
  lemma LayoutFields(tp: int, timestamp: nat, random: seq<Byte>, counter: nat)
    requires |random| == RandomLength
    requires timestamp < TimestampLimit && counter < CounterModulus
    ensures var id := Layout(tp, timestamp, random, counter);
      && |id| == IdLength
      && id[0] == tp % 256
      && FromBigEndian(id[1..7]) == timestamp
      && id[7..11] == random
      && FromBigEndian(id[11..14]) == counter
  {
    var id := Layout(tp, timestamp, random, counter);
    assert id[1..7] == BigEndian(timestamp, TimestampWidth);
    assert id[11..14] == BigEndian(counter, CounterWidth);
    assert Pow256(6) == TimestampLimit && Pow256(3) == CounterModulus;
    FromBigEndianOfBigEndian(timestamp, TimestampWidth);
    FromBigEndianOfBigEndian(counter, CounterWidth);
  }

  // ---------------------------------------------------------------------
  // Hex encoding
  // ---------------------------------------------------------------------

  /** The lower-case hex digit of `d`. */
  function HexDigit(d: nat): (c: char)
    requires d < 16
    ensures IsHexDigit(c)
  {
    if d < 10 then (48 + d) as char else (97 + d - 10) as char
  }

  predicate IsHexDigit(c: char) {
    '0' <= c <= '9' || 'a' <= c <= 'f'
  }

  function DigitValue(c: char): (d: nat)
    requires IsHexDigit(c)
    ensures d < 16
  {
    if c <= '9' then c as int - 48 else c as int - 97 + 10
  }

  /** Two lower-case hex digits per byte, high nibble first, bytes in order. */
  function Hex(bs: seq<Byte>): (s: string)
    ensures |s| == 2 * |bs|
    ensures forall i :: 0 <= i < |s| ==> IsHexDigit(s[i])
  {
    if bs == [] then []
    else
      var b := bs[|bs| - 1];
      Hex(bs[..|bs| - 1]) + [HexDigit(b / 16), HexDigit(b % 16)]
  }

  /** Decodes a string of pairs of hex digits. */
  function FromHex(s: string): seq<Byte>
    requires |s| % 2 == 0 && forall i :: 0 <= i < |s| ==> IsHexDigit(s[i])
  {
    if s == [] then []
    else FromHex(s[..|s| - 2]) + [DigitValue(s[|s| - 2]) * 16 + DigitValue(s[|s| - 1])]
  }

  lemma {:induction false} FromHexOfHex(bs: seq<Byte>)
    ensures FromHex(Hex(bs)) == bs
  {
    if bs != [] {
      var n := |bs|;
      var s := Hex(bs);
      assert s[..|s| - 2] == Hex(bs[..n - 1]);
      FromHexOfHex(bs[..n - 1]);
      assert bs == bs[..n - 1] + [bs[n - 1]];
    }
  }

  /** Byte `i` is spelled by characters 2i and 2i+1. */
  lemma {:induction false} HexAt(bs: seq<Byte>, i: nat)
    requires i < |bs|
    ensures Hex(bs)[2 * i] == HexDigit(bs[i] / 16) && Hex(bs)[2 * i + 1] == HexDigit(bs[i] % 16)
  {
    if i < |bs| - 1 {
      HexAt(bs[..|bs| - 1], i);
    }
  }

  // ---------------------------------------------------------------------
  // Process-wide state and the identifiers
  // ---------------------------------------------------------------------

  /** `RANDOM_BYTES` and `COUNTER`, shared by every identifier of a process. */
  class ProcessState {
    const random: seq<Byte>
    var counter: int

    predicate Valid()
      reads this
    {
      |random| == RandomLength && 0 <= counter < CounterModulus
    }

    /** The counter starts at the value of three random bytes read big-endian. */
    constructor (randomBytes: seq<Byte>, counterBytes: seq<Byte>)
      requires |randomBytes| == RandomLength && |counterBytes| == CounterWidth
      ensures Valid()
      ensures random == randomBytes && counter == FromBigEndian(counterBytes)
    {
      random := randomBytes;
      counter := FromBigEndian(counterBytes);
    }
  }

  /** `buf.writeUIntBE(value, offset, width)`: writes the big-endian digits of `value`. */
  method WriteUIntBE(buf: array<Byte>, value: nat, offset: nat, width: nat)
    requires offset + width <= buf.Length && value < Pow256(width)
    modifies buf
    ensures buf[offset..offset + width] == BigEndian(value, width)
    ensures buf[..offset] == old(buf[..offset])
    ensures buf[offset + width..] == old(buf[offset + width..])
  {
    var v, i := value, width;
    while i > 0
      invariant 0 <= i <= width
      invariant BigEndian(value, width) == BigEndian(v, i) + buf[offset + i..offset + width]
      invariant buf[..offset] == old(buf[..offset])
      invariant buf[offset + width..] == old(buf[offset + width..])
    {
      buf[offset + i - 1] := v % 256;
      v, i := v / 256, i - 1;
    }
  }

  /** `src.copy(buf, offset)`: copies all of `src` into `buf` from `offset`. */
  method CopyInto(src: seq<Byte>, buf: array<Byte>, offset: nat)
    requires offset + |src| <= buf.Length
    modifies buf
    ensures buf[offset..offset + |src|] == src
    ensures buf[..offset] == old(buf[..offset])
    ensures buf[offset + |src|..] == old(buf[offset + |src|..])
  {
    var i := 0;
    while i < |src|
      invariant 0 <= i <= |src|
      invariant buf[offset..offset + i] == src[..i]
      invariant buf[..offset] == old(buf[..offset])
      invariant buf[offset + |src|..] == old(buf[offset + |src|..])
    {
      buf[offset + i] := src[i];
      i := i + 1;
    }
  }

  class ObjectId {
    const data: array<Byte>

    /** An identifier is always 14 bytes long. */
    predicate Valid() {
      data.Length == IdLength
    }

    /**
     * Fills a fresh zeroed 14-byte buffer with the type byte, the timestamp,
     * the process's random bytes and the counter read before it advances.
     */
    constructor (tp: int, timestamp: nat, state: ProcessState)
      requires state.Valid() && timestamp < TimestampLimit
      modifies state
      ensures fresh(data) && Valid()
      ensures data[..] == Layout(tp, timestamp, state.random, old(state.counter))
      ensures state.Valid()
      ensures state.counter == (old(state.counter) + 1) % CounterModulus
    {
      var buf := new Byte[IdLength](_ => 0);
      buf[0] := TypeByte(tp);
      assert Pow256(TimestampWidth) == TimestampLimit;
      WriteUIntBE(buf, timestamp, 1, TimestampWidth);
      assert buf[..1] == [TypeByte(tp)];
      CopyInto(state.random, buf, 7);
      ghost var head := buf[..11];
      var counter := state.counter;
      state.counter := (state.counter + 1) % CounterModulus;
      assert Pow256(CounterWidth) == CounterModulus;
      WriteUIntBE(buf, counter, 11, CounterWidth);
      ghost var id := Layout(tp, timestamp, state.random, counter);
      assert buf[..11] == head;
      assert buf[..1] == id[..1] && buf[1..7] == id[1..7] && buf[7..11] == id[7..11] && buf[11..] == id[11..] by {
        assert buf[..1] == head[..1] && buf[1..7] == head[1..7] && buf[7..11] == head[7..11];
      }
      assert buf[..] == buf[..1] + buf[1..7] + buf[7..11] + buf[11..];
      assert id == id[..1] + id[1..7] + id[7..11] + id[11..];
      data := buf;
    }

    /** `ObjectId.generate(type)`: the type defaults to 0, the timestamp is the clock reading `now`. */
    static method Generate(tp: Option<int>, now: nat, state: ProcessState) returns (id: ObjectId)
      requires state.Valid() && now < TimestampLimit
      modifies state
      ensures fresh(id) && fresh(id.data) && id.Valid()
      ensures id.data[..] == Layout(if tp.Some? then tp.value else 0, now, state.random, old(state.counter))
      ensures state.Valid()
      ensures state.counter == (old(state.counter) + 1) % CounterModulus
    {
      id := new ObjectId(if tp.Some? then tp.value else 0, now, state);
    }

    /** `toString()` with the default encoding: hex, two digits per byte in byte order. */
    function ToString(): (s: string)
      requires Valid()
      reads data
      ensures |s| == 2 * IdLength
      ensures forall i :: 0 <= i < |s| ==> IsHexDigit(s[i])
      ensures FromHex(s) == data[..]
    {
      FromHexOfHex(data[..]);
      Hex(data[..])
    }
  }

  /**
   * Two identifiers made one after the other by the same process share their
   * random bytes, and the second carries the counter after the first's.
   */
  method GenerateTwice(tp1: Option<int>, tp2: Option<int>, now1: nat, now2: nat, state: ProcessState)
    returns (first: ObjectId, second: ObjectId)
    requires state.Valid() && now1 < TimestampLimit && now2 < TimestampLimit
    modifies state
    ensures fresh(first) && fresh(second) && first.Valid() && second.Valid()
    ensures first.data[..] == Layout(if tp1.Some? then tp1.value else 0, now1, state.random, old(state.counter))
    ensures second.data[..] ==
      Layout(if tp2.Some? then tp2.value else 0, now2, state.random, (old(state.counter) + 1) % CounterModulus)
    ensures first.data[7..11] == second.data[7..11] == state.random
    ensures FromBigEndian(first.data[11..14]) == old(state.counter)
    ensures FromBigEndian(second.data[11..14]) == (FromBigEndian(first.data[11..14]) + 1) % CounterModulus
    ensures state.Valid()
    ensures state.counter == (old(state.counter) + 2) % CounterModulus
  {
    first := ObjectId.Generate(tp1, now1, state);
    ghost var c1 := old(state.counter);
    ghost var d1 := first.data[..];
    LayoutFields(if tp1.Some? then tp1.value else 0, now1, state.random, c1);
    second := ObjectId.Generate(tp2, now2, state);
    assert first.data[..] == d1;
    LayoutFields(if tp2.Some? then tp2.value else 0, now2, state.random, (c1 + 1) % CounterModulus);
    CounterTwice(c1);
  }

  lemma CounterTwice(c: int)
    ensures ((c + 1) % CounterModulus + 1) % CounterModulus == (c + 2) % CounterModulus
  {
  }
}

=== FILE: wrappers.dfy ===
/** Optional values and bytes, shared by the other modules. */
module Wrappers {

  /** A value that may be missing: an optional argument or a failed lookup. */
  datatype Option<+T> = None | Some(value: T)

  /** An unsigned 8-bit value, one element of a Buffer. */
  type Byte = b: int | 0 <= b < 256
}
